=== FILE: README.md ===
# Post analytics dashboard: cleaning pipeline and aggregations

This project models the data side of a Streamlit dashboard over a CSV export of
social-media posts (`dash.py`). It covers two parts:

- `load_data`, the cleaning pipeline. It drops the header lines repeated inside
  concatenated exports. It coerces `followers_count` and `media_count` to
  numbers, with 0 for anything unusable. It parses each timestamp by trying five
  strict formats in a fixed order and then a lenient inference. It drops the
  rows whose timestamp did not parse, derives the calendar fields and keeps only
  the years from 2010 to next year.
- The aggregations in `main`. These are the year selector and its default
  selection, the year filter, the posts per year and per hour, the
  year-by-month heatmap with its pandemic marker, the monthly series with its
  centered three-month window, the pre/post pandemic split (boundary
  2020-03-01 UTC) and the Monday-to-Sunday weekday counts.

Modules:

- `Options`: an optional value.
- `Seqs`: order-preserving filter (`Keep`), `Map`, subsequences, ascending
  de-duplication (`Ascending`), and counting keys against a multiset.
- `Calendar`: calendar timestamps (`Instant`), their chronological order, the
  weekday of a date and the pandemic boundary.
- `Numeric`: the numeric coercion of one column.
- `Timestamps`: the ordered-fallback timestamp parser.
- `Loader`: `load_data`.
- `Views`: the aggregations of `main`.

Values the program takes from its environment are parameters:

- the current calendar year (`now`);
- the library's strict-format and inference parsers (`Parsers`);
- the UTC re-parse used by the pandemic split (`utc`);
- the CSV contents, as a sequence of rows or None when the file cannot be read;
- the years picked in the selector (`selected`).

Two behaviours of the code are worth stating plainly:

- The code never clamps `followers_count`, so a negative numeral stays
  negative.
- The no-valid-timestamp test (dash.py:84) runs before the year filter
  (dash.py:98). `load_data` can therefore return an empty table rather than
  None. `main` then stops on its own emptiness test
  (`Loader.YearFilterCanEmptyTable`).

## Model

| member | source | states |
|---|---|---|
| `Calendar.BeforePandemicIffEarlierMonth` | dash.py:306 | An instant is before the 2020-03-01 boundary exactly when it falls in a month before March 2020. The boundary instant itself is not before it. |
| `Calendar.EpochIsThursday` | dash.py:93 | The weekday derivation names 1970-01-01 a Thursday. |
| `Calendar.PandemicStartIsSunday` | dash.py:93 | The weekday derivation names 2020-03-01 a Sunday. |
| `Calendar.LeapDay2000IsTuesday` | dash.py:93 | The weekday derivation names 2000-02-29, a leap day of a century year, a Tuesday. |
| `Calendar.WeekOrderComplete` | dash.py:410 | The Monday-first week lists every weekday exactly once, so reindexing by it neither loses nor repeats a day. |
| `Calendar.DaysFromCivilNextDay` | dash.py:93 | Within a month, the next day of the month is the next day count. |
| `Calendar.DaysFromCivilNextMonth` | dash.py:93 | The first of a month is the day after the last day of the previous month, leap Februaries included. |
| `Calendar.DaysFromCivilNextYear` | dash.py:93 | January 1 is the day after December 31 of the previous year. |
| `Calendar.MarchYearStep` | dash.py:93 | A year counted from March has 366 days exactly when the February it ends with is a Gregorian leap February. |
| `Calendar.NextDay` | dash.py:93 | The next calendar date is later than the given one and keeps its time of day. |
| `Calendar.NextDayIsNextCivilDay` | dash.py:93 | Consecutive calendar dates have consecutive day counts, across month and year ends. |
| `Calendar.ConsecutiveWeekdays` | dash.py:93 | Every date's weekday is the one after the previous date's weekday, in the Monday-to-Sunday cycle. With the reference dates above, every date is named correctly. |
| `Calendar.WeekdayOf` | dash.py:93 | The weekday of a timestamp's date agrees with Sakamoto's independent day-of-week formula (0 for Sunday, shifted to the Monday-first week). It is also Thursday, the weekday of 1970-01-01, advanced by the date's day count, modulo 7. The time of day plays no part. |
| `Calendar.DaysMatchSakamoto` | dash.py:93 | For every date of the proleptic calendar, the day count since 1970-01-01 and Sakamoto's formula name the same weekday. |
| `Calendar.WeekIndex` | dash.py:410 | Gives a weekday's position in the Monday-first week; that position holds the weekday. |
| `Numeric.ParseIntRoundTrip` | dash.py:34 | The decimal numeral of any integer parses back to that integer. |
| `Numeric.NumericOrZero` | dash.py:34-35 | One cell's coerced value. The numeral of any integer gives that integer. A missing cell, or one holding no decimal digit, gives 0. A negative value comes only from a cell starting with a minus sign. |
| `Numeric.NumericOrZeroRendered` | dash.py:34-35 | The numeral of any integer, as a cell, coerces back to that integer. |
| `Numeric.SafeNumericConvert` | dash.py:32-39 | The result has one number per cell. A numeral cell gives its value. A missing or non-numeric cell gives 0, never a missing value. |
| `Numeric.SafeNumericConvertRendered` | dash.py:34-35 | A column of integer numerals coerces back to exactly those integers. |
| `Timestamps.FirstFormatFrom` | dash.py:65-69 | Returns the first format at or after position k that parses the string. Every earlier format from k fails. None exactly when all remaining formats fail. |
| `Timestamps.WinningFormat` | dash.py:57-69 | Returns the first format in the fixed order that parses the string, or None exactly when all five fail. |
| `Timestamps.ParseTimestamp` | dash.py:49-75 | A missing cell, an empty string or the header text gives no timestamp. Otherwise the result is that of the first strict format that succeeds. When all five fail, the result is that of the inference parser. |
| `Timestamps.InferenceOnlyAsLastResort` | dash.py:71-75 | When some strict format succeeds, the result is present and does not depend on the inference parser. |
| `Timestamps.LiteralUtcShadowedByOffsetFormat` | dash.py:58-59 | The `+0000`-literal format never wins for a string the `%z` format also accepts. |
| `Loader.DropHeaderRows` | dash.py:29 | Keeps, in order, exactly the rows whose timestamp cell is not the header text, each as many times as it occurs. Header rows are removed entirely. |
| `Loader.Stage` | dash.py:42-46 | The column-wise coercion of both metric columns plus the parsed timestamp agrees, row by row, with coercing each row on its own. |
| `Loader.DropUnparsed` | dash.py:82 | The posts kept are exactly the staged records with a parsed timestamp, in order. |
| `Loader.LoadData` | dash.py:23-111 | None exactly when the file is unreadable or no row's timestamp parses. This assumes every parsed instant yields calendar fields; see Left out for mixed tz-aware and naive columns. Otherwise every post's timestamp is not the header text and its year lies in [2010, now + 1]. |
| `Loader.ParsedPostsFacts` | dash.py:82-86 | The table after `dropna` is empty exactly when no source row's timestamp parses. No header line reaches it. |
| `Loader.NoHeaderParsed` | dash.py:29-82 | No header line reaches the table after `dropna`. |
| `Loader.StagedParsed` | dash.py:79-84 | After the header filter, some staged record is parsed exactly when some source row's timestamp parses. |
| `Loader.LoadDataKeepsSurvivors` | dash.py:29-98 | Cleaning only removes rows and keeps the order of the rest. The cleaned table is exactly the coerced source rows whose timestamp parsed to an in-range year, in source order. |
| `Loader.CleanedAsStaged` | dash.py:82-98 | Dropping unparsed records and then out-of-range years keeps exactly the records that survive both tests. |
| `Loader.StagedAsSource` | dash.py:29 | No surviving row is a header line, so the header filter changes nothing for the survivors. |
| `Loader.YearFilterCanEmptyTable` | dash.py:84-98 | A source whose only parsed row is from 2005 loads as an empty table, not as None. |
| `Views.YearsAvailable` | dash.py:130 | The selector's options are the distinct years present, strictly ascending. |
| `Views.YearsAvailableUnique` | dash.py:130 | Any strictly ascending listing of exactly the years present equals the selector's options. |
| `Views.DefaultSelection` | dash.py:134 | The default has at most three years, all present and ascending. It has three years or all of them, and every year left out is older than every year selected. |
| `Views.FilterByYears` | dash.py:138-141 | An empty selection keeps the table as is. Otherwise the result keeps, in order, exactly the rows of a selected year, each once per occurrence. |
| `Views.GroupCount` | dash.py:174 | Every key present appears once, in ascending order, with its positive number of occurrences. The counts add up to the number of rows. |
| `Views.YearlyCounts` | dash.py:174 | Posts per year: one bar per year present, ascending, with that year's row count. The bars add up to the filtered row count. |
| `Views.HourlyCounts` | dash.py:191 | Posts per hour: one bar per hour present, each hour within 0..23, with its row count. The bars add up to the filtered row count. |
| `Views.Heatmap` | dash.py:209-215 | None exactly when there are no rows. Otherwise the rows are the months present and the columns the years present, both ascending. Each cell is the number of rows with that year and month, 0 when none. |
| `Views.HeatmapCellPositive` | dash.py:215 | A cell is positive exactly when some row has that year and month; the others are zero-filled. |
| `Views.MonthRowTotal` | dash.py:209-215 | One month's row of the pivot adds up to the number of rows in that month. |
| `Views.GridRowsTotal` | dash.py:209-215 | The rows of the pivot add up to the month counts of their months. |
| `Views.HeatmapTotal` | dash.py:209-215 | Every row lands in exactly one cell: the cells add up to the row count. |
| `Views.PandemicMarker` | dash.py:235-247 | A cross-hair when 2020 is among the years and March among the months. Only the year line when 2020 is present but March is not. Nothing otherwise. |
| `Views.MonthIndexRoundTrip` | dash.py:295 | A month period's index gives back its year and month. |
| `Views.MonthIndexChronological` | dash.py:295-296 | Ordering period indexes orders months chronologically. |
| `Views.MonthlySeries` | dash.py:293-296 | Posts per month over the whole table, in chronological order. Each period present has its positive count, and the counts add up to the row count. |
| `Views.RollingSums` | dash.py:300-303 | A window is defined only when there are more than three periods, and then only away from the two ends. Each defined window is the sum of the period and its two neighbours. |
| `Views.CountDefinedRange` | dash.py:323 | When exactly the positions of an interval hold a value, the number of defined values is the interval's length. |
| `Views.RollingWindowsDefined` | dash.py:300-323 | The rolling line is drawn exactly when there are more than three periods. Its defined points then number two fewer than the periods. |
| `Views.PeriodOfPost` | dash.py:364-369 | A row is pre-pandemic exactly when its timestamp re-parses as UTC to an instant in a month before March 2020. A failed re-parse (NaT) or a missing timestamp lands in the later bucket, as does the boundary instant. |
| `Views.SplitByPandemic` | dash.py:364-379 | The two slices count the rows of the whole table before and not before the boundary, and add up to the row count. |
| `Views.SplitPartitions` | dash.py:367-376 | The two buckets partition the table: together they hold every row exactly once. |
| `Views.PieShownIffRows` | dash.py:379-381 | The pie chart is drawn exactly when the table has a row. |
| `Views.SplitExample` | dash.py:364-379 | Posts dated 2019-01-01 and 2020-02-15 count as before the boundary; 2020-03-01 and 2021-06-01 count as after. |
| `Views.WeekdayCounts` | dash.py:410-411 | Seven counts, Monday first. Each is that weekday's row count, 0 exactly when the weekday never occurs, and they add up to the row count. |
| `Views.BuildDashboard` | dash.py:122-141 | None exactly when loading failed or the table is empty. Otherwise the selector lists the table's years, ascending. An empty selection keeps every row; otherwise each row of a selected year is kept as often as it occurs, and no other row. The yearly, hourly, heatmap and weekday views are the per-key counts of the filtered rows, as their own rows state. The monthly series, its rolling windows and the pandemic split are computed over the whole table. |

## Left out

- Page layout, widgets, metrics cards, figures, colours and captions (dash.py:13-19, 143-169, 177-186, 194-203, 217-233, 236-245, 248-290, 309-321, 324-360, 382-402, 413-419). Only the data handed to each chart, and the conditions under which a chart is drawn, are modelled.
- File reading and the Streamlit cache. The CSV is a parameter; an unreadable file, or one without a `timestamp` column (dash.py:29), is the `None` source. The `.dt` failure caught at dash.py:109-111 is treated separately below.
- Numeric.SafeNumericConvert: recognises only optionally signed decimal integers. Numerals that `to_numeric` also accepts (decimals, exponents, surrounding whitespace, `inf`) coerce to 0 here, because floating point is not modelled. Values are unbounded integers, with no 64-bit width and no rounding. In the program, a numeral outside the int64/uint64 range makes the column float64. So does any cell coerced to NaN, since `fillna(0)` (dash.py:35) keeps the column float. Integers above 2^53 are then rounded, while the model keeps them exact.
- Numeric.SafeNumericConvert: the exception branch that returns a column of zeros (dash.py:37-39) is not modelled, because `to_numeric` with `errors='coerce'` does not raise on cell contents.
- Loader.LoadData: both metric columns are assumed present; the `in df.columns` tests (dash.py:42-46) are not modelled.
- Loader.LoadData: the final re-coercion (dash.py:100-104) is not modelled. It is the identity on the integer columns the model already holds.
- Loader.LoadData: the `date` column (dash.py:94) is not kept separately. The monthly series reads the year and month of the parsed instant, which is the same date.
- Loader.LoadData: does not model the failure of the `.dt` accessor (dash.py:89) on a parsed column that is not one uniform datetime type. This happens when tz-aware instants are mixed with naive ones or carry different offsets. Example: `%z` parses "2021-05-01T10:00:00+0000" as tz-aware, and "2021-05-02 10:00:00" parses naive (dash.py:58, 61). The program's exception handler (dash.py:109-111) then returns None; the model returns both posts. Every parsed instant is treated as carrying its own calendar fields.
- Timestamps.ParseTimestamp: the strict and inference parsers are parameters. Their acceptance of each format, time zones and sub-second precision belong to the dataframe library.
- Views.SplitByPandemic: the UTC re-parse (dash.py:364) is the parameter `utc`, applied to each cell on its own. Each cell's re-parse is assumed independent of the other cells. The library parses the whole column at once and may infer one format from the first cell, turning cells of another format into NaT, which then count as after the boundary. Converting offsets to UTC is not modelled either.
- The pandemic end date (dash.py:307) is only used for a chart overlay and is not modelled.
- Views.RollingSums: yields the window sums. The rolling mean is each sum divided by 3, a float not modelled here.
- The unique-user count, the mean follower count and the years span metric (dash.py:147-164) are display-only and not modelled.

=== FILE: calendar.dfy ===
/** Proleptic Gregorian calendar values as the dashboard sees them: a parsed
    timestamp's wall-clock fields, the weekday name derived from its date, the
    chronological order of two instants, and the fixed pandemic boundary. */
module Calendar {

  predicate IsLeapYear(y: int) {
    y % 4 == 0 && (y % 100 != 0 || y % 400 == 0)
  }

  function DaysInMonth(y: int, m: int): int
    requires 1 <= m <= 12
  {
    if m == 2 then (if IsLeapYear(y) then 29 else 28)
    else if m == 4 || m == 6 || m == 9 || m == 11 then 30
    else 31
  }

  /** Calendar fields of a timestamp, to the second. */
  datatype DateTime = DateTime(year: int, month: int, day: int, hour: int, minute: int, second: int)

  predicate Valid(d: DateTime) {
    && 1 <= d.month <= 12
    && 1 <= d.day <= DaysInMonth(d.year, d.month)
    && 0 <= d.hour < 24
    && 0 <= d.minute < 60
    && 0 <= d.second < 60
  }

  /** A timestamp a parser can produce: every field within its calendar range. */
  type Instant = d: DateTime | Valid(d) witness DateTime(1970, 1, 1, 0, 0, 0)

  /** `a` is strictly earlier than `b` (both read in the same zone). */
  predicate Before(a: DateTime, b: DateTime) {
    if a.year != b.year then a.year < b.year
    else if a.month != b.month then a.month < b.month
    else if a.day != b.day then a.day < b.day
    else if a.hour != b.hour then a.hour < b.hour
    else if a.minute != b.minute then a.minute < b.minute
    else a.second < b.second
  }

  /** The start of the pandemic period, 2020-03-01T00:00:00 UTC (dash.py:306). */
  const PandemicStart: Instant := DateTime(2020, 3, 1, 0, 0, 0)

  /** An instant is before the pandemic boundary exactly when it falls in a
      month before March 2020; the boundary instant itself is not before it. */
  lemma BeforePandemicIffEarlierMonth(t: Instant)
    ensures Before(t, PandemicStart) <==> t.year < 2020 || (t.year == 2020 && t.month < 3)
  {
  }

  datatype Weekday = Monday | Tuesday | Wednesday | Thursday | Friday | Saturday | Sunday

  /** The canonical Monday-first week (dash.py:410). */
  const WeekOrder: seq<Weekday> := [Monday, Tuesday, Wednesday, Thursday, Friday, Saturday, Sunday]

  /** Days since 1970-01-01 of the given civil date (Euclidean division is
      floor division here, since every divisor is positive). */
  function DaysFromCivil(y: int, m: int, d: int): int
    requires 1 <= m <= 12
  {
    var y' := if m <= 2 then y - 1 else y;
    var era := y' / 400;
    var yoe := y' - era * 400;
    var mp := if m > 2 then m - 3 else m + 9;
    var doy := (153 * mp + 2) / 5 + d - 1;
    var doe := yoe * 365 + yoe / 4 - yoe / 100 + doy;
    era * 146097 + doe - 719468
  }

  /** The weekday of the instant's calendar date (1970-01-01 was a Thursday),
      agreeing with the independent Sakamoto day-of-week formula. */
  function WeekdayOf(t: Instant): (w: Weekday)
    ensures WeekIndex(w) == (WeekIndex(Thursday) + DaysFromCivil(t.year, t.month, t.day)) % 7
    ensures WeekIndex(w) == (Sakamoto(t.year, t.month, t.day) + 6) % 7
  {
    WeekOrderComplete(Monday);
    DaysMatchSakamoto(t.year, t.month, t.day);
    WeekOrder[(DaysFromCivil(t.year, t.month, t.day) + 3) % 7]
  }

  /** Month offsets of Sakamoto's day-of-week method, January first. */
  const SakamotoTable: seq<int> := [0, 3, 2, 5, 0, 3, 5, 1, 4, 6, 2, 4]

  /** Sakamoto's day of the week, 0 for Sunday through 6 for Saturday, with
      floor division so that it holds for the whole proleptic calendar. */
  function Sakamoto(y: int, m: int, d: int): (s: int)
    requires 1 <= m <= 12
    ensures 0 <= s < 7
  {
    var y' := if m < 3 then y - 1 else y;
    (y' + y' / 4 - y' / 100 + y' / 400 + SakamotoTable[m - 1] + d) % 7
  }

  /** The day count since the epoch and Sakamoto's formula name the same
      weekday: the count plus 3 is Monday-based, Sakamoto plus 6 likewise. */
  lemma DaysMatchSakamoto(y: int, m: int, d: int)
    requires 1 <= m <= 12
    ensures (DaysFromCivil(y, m, d) + 3) % 7 == (Sakamoto(y, m, d) + 6) % 7
  {
    var y' := if m <= 2 then y - 1 else y;
    var era := y' / 400;
    var yoe := y' - era * 400;
    DivModUnique(y', 4, era * 100 + yoe / 4, yoe % 4);
    DivModUnique(y', 100, era * 4 + yoe / 100, yoe % 100);
    var sum := y' + y' / 4 - y' / 100 + y' / 400 + SakamotoTable[m - 1] + d;
    assert sum == 497 * era + yoe + yoe / 4 - yoe / 100 + SakamotoTable[m - 1] + d;
    var gap := DaysBeforeMonth(m) - SakamotoTable[m - 1] - 5;
    assert gap % 7 == 0 && gap == (gap / 7) * 7;
    DaysFromCivilShifted(y, m, d);
    var q := era * 20800 + yoe * 52 + gap / 7 - 102781;
    assert DaysFromCivil(y, m, d) + 3 == sum + 6 + 7 * q;
    DivModUnique(DaysFromCivil(y, m, d) + 3, 7, (sum + 6) / 7 + q, (sum + 6) % 7);
  }

  /** The weekday's index read from the day count. */
  lemma WeekIndexByDays(t: Instant)
    ensures WeekIndex(WeekdayOf(t)) == (DaysFromCivil(t.year, t.month, t.day) + 3) % 7
  {
  }

  /** Reference dates for the weekday derivation. */
  lemma EpochIsThursday()
    ensures WeekdayOf(DateTime(1970, 1, 1, 0, 0, 0)) == Thursday
  {
    assert DaysFromCivil(1970, 1, 1) == 0;
  }

  lemma PandemicStartIsSunday()
    ensures WeekdayOf(PandemicStart) == Sunday
  {
    assert DaysFromCivil(2020, 3, 1) == 18322;
  }

  lemma LeapDay2000IsTuesday()
    ensures WeekdayOf(DateTime(2000, 2, 29, 12, 0, 0)) == Tuesday
  {
    assert DaysFromCivil(2000, 2, 29) == 11016;
  }

  /** The seven weekdays, each once: the week order is a complete, duplicate-free key list. */
  lemma WeekOrderComplete(w: Weekday)
    ensures w in WeekOrder
    ensures forall i, j :: 0 <= i < j < |WeekOrder| ==> WeekOrder[i] != WeekOrder[j]
  {
  }

  /** The position of a weekday in the Monday-first week. */
  function WeekIndex(w: Weekday): (i: nat)
    ensures i < 7 && WeekOrder[i] == w
  {
    match w
    case Monday => 0
    case Tuesday => 1
    case Wednesday => 2
    case Thursday => 3
    case Friday => 4
    case Saturday => 5
    case Sunday => 6
  }

  /** The same time of day on the following calendar date. */
  function NextDay(t: Instant): (u: Instant)
    ensures Before(t, u)
    ensures u.hour == t.hour && u.minute == t.minute && u.second == t.second
  {
    if t.day < DaysInMonth(t.year, t.month) then DateTime(t.year, t.month, t.day + 1, t.hour, t.minute, t.second)
    else if t.month < 12 then DateTime(t.year, t.month + 1, 1, t.hour, t.minute, t.second)
    else DateTime(t.year + 1, 1, 1, t.hour, t.minute, t.second)
  }

  // The day count advances by one across a day, a month end and a year end.
  lemma DaysFromCivilNextDay(y: int, m: int, d: int)
    requires 1 <= m <= 12
    ensures DaysFromCivil(y, m, d + 1) == DaysFromCivil(y, m, d) + 1
  {
  }

  lemma DaysFromCivilNextMonth(y: int, m: int)
    requires 1 <= m < 12
    ensures DaysFromCivil(y, m + 1, 1) == DaysFromCivil(y, m, DaysInMonth(y, m)) + 1
  {
    DaysFromCivilShifted(y, m, DaysInMonth(y, m));
    DaysFromCivilShifted(y, m + 1, 1);
    if m == 2 {
      MarchYearStep(y - 1);
    }
  }

  /** Days from March 1 to the first of month `m` in a March-based year. */
  function DaysBeforeMonth(m: int): int
    requires 1 <= m <= 12
  {
    match m
    case 3 => 0
    case 4 => 31
    case 5 => 61
    case 6 => 92
    case 7 => 122
    case 8 => 153
    case 9 => 184
    case 10 => 214
    case 11 => 245
    case 12 => 275
    case 1 => 306
    case _ => 337
  }

  /** The day count split into its March-based year and the day within that year. */
  lemma DaysFromCivilShifted(y: int, m: int, d: int)
    requires 1 <= m <= 12
    ensures DaysFromCivil(y, m, d) == MarchYearStart(if m <= 2 then y - 1 else y) + DaysBeforeMonth(m) + d - 1 - 719468
  {
  }

  /** Days from 0000-03-01 to March 1 of the shifted year `yp` (years starting in March). */
  function MarchYearStart(yp: int): int {
    var era := yp / 400;
    var yoe := yp - era * 400;
    era * 146097 + yoe * 365 + yoe / 4 - yoe / 100
  }

  /** A shifted year has 366 days exactly when the February it ends with is a leap February. */
  lemma MarchYearStep(yp: int)
    ensures MarchYearStart(yp + 1) == MarchYearStart(yp) + (if IsLeapYear(yp + 1) then 366 else 365)
  {
    var era := yp / 400;
    var yoe := yp - era * 400;
    if yoe < 399 {
      DivModUnique(yp + 1, 400, era, yoe + 1);
      DivModUnique(yp + 1, 4, era * 100 + (yoe + 1) / 4, (yoe + 1) % 4);
      DivModUnique(yp + 1, 100, era * 4 + (yoe + 1) / 100, (yoe + 1) % 100);
      QuotientStep(yoe, 4);
      QuotientStep(yoe, 100);
    } else {
      DivModUnique(yp + 1, 400, era + 1, 0);
      DivModUnique(yp + 1, 4, era * 100 + 100, 0);
    }
  }

  lemma DivModUnique(a: int, d: int, q: int, r: int)
    requires d > 0 && a == q * d + r && 0 <= r < d
    ensures a / d == q && a % d == r
  {
    var q' := a / d;
    var r' := a % d;
    assert q * d - q' * d == r' - r;
    if q > q' {
      MulAtLeast(q - q', d);
    } else if q < q' {
      MulAtLeast(q' - q, d);
    }
  }

  lemma MulAtLeast(x: int, d: int)
    requires x >= 1 && d > 0
    ensures x * d >= d
  {
    assert x * d == (x - 1) * d + d;
  }

  /** Counting one more number adds a multiple of `d` exactly when it reaches one. */
  lemma QuotientStep(k: nat, d: int)
    requires d > 0
    ensures (k + 1) / d == k / d + (if (k + 1) % d == 0 then 1 else 0)
  {
    var q := k / d;
    var r := k % d;
    if r == d - 1 {
      DivModUnique(k + 1, d, q + 1, 0);
    } else {
      DivModUnique(k + 1, d, q, r + 1);
    }
  }

  lemma DaysFromCivilNextYear(y: int)
    ensures DaysFromCivil(y + 1, 1, 1) == DaysFromCivil(y, 12, 31) + 1
  {
  }

  /** Consecutive calendar dates are consecutive days. */
  lemma NextDayIsNextCivilDay(t: Instant)
    ensures DaysFromCivil(NextDay(t).year, NextDay(t).month, NextDay(t).day) == DaysFromCivil(t.year, t.month, t.day) + 1
  {
    if t.day < DaysInMonth(t.year, t.month) {
      DaysFromCivilNextDay(t.year, t.month, t.day);
    } else if t.month < 12 {
      DaysFromCivilNextMonth(t.year, t.month);
    } else {
      DaysFromCivilNextYear(t.year);
    }
  }

  /** Every date's weekday follows the previous date's weekday in the week's
      cycle, so with one correct reference date every date is named correctly. */
  lemma ConsecutiveWeekdays(t: Instant)
    ensures WeekIndex(WeekdayOf(NextDay(t))) == (WeekIndex(WeekdayOf(t)) + 1) % 7
  {
    var n := DaysFromCivil(t.year, t.month, t.day);
    NextDayIsNextCivilDay(t);
    WeekIndexByDays(t);
    WeekIndexByDays(NextDay(t));
    DivModUnique(n + 3, 7, (n + 3) / 7, (n + 3) % 7);
    if (n + 3) % 7 == 6 {
      DivModUnique(n + 4, 7, (n + 3) / 7 + 1, 0);
    } else {
      DivModUnique(n + 4, 7, (n + 3) / 7, (n + 3) % 7 + 1);
    }
  }
}

=== FILE: loader.dfy ===
/** The cleaning pipeline of `load_data` (dash.py:23-111): drop repeated
    header lines, coerce the metric columns, parse the timestamps, drop the rows
    without one, derive the calendar fields and keep only plausible years. */
module Loader {
  import opened Options
  import opened Seqs
  import opened Calendar
  import opened Numeric
  import opened Timestamps

  /** The oldest year a cleaned post may carry (dash.py:98). */
  const MinYear: int := 2010

  /** A row as read from the CSV file; None stands for an empty cell. */
  datatype RawRow = RawRow(timestamp: Option<string>, username: string, followers: Option<string>, media: Option<string>)

  /** A row after numeric coercion and timestamp parsing (before `dropna`). */
  datatype Record = Record(timestamp: Option<string>, username: string, followers: int, media: int, parsed: Option<Instant>)

  /** A row of the cleaned table: its parsed timestamp is always present. */
  datatype Post = Post(timestamp: Option<string>, username: string, followers: int, media: int, at: Instant)

  // The calendar fields derived from the parsed timestamp (dash.py:89-94).
  function YearOf(p: Post): int { p.at.year }
  function MonthOf(p: Post): int { p.at.month }
  function HourOf(p: Post): int { p.at.hour }
  function WeekdayOfPost(p: Post): Weekday { WeekdayOf(p.at) }

  predicate NotHeader(row: RawRow) {
    row.timestamp != Some(Header)
  }

  /** Removes the header lines repeated inside concatenated exports (dash.py:29). */
  function DropHeaderRows(rows: seq<RawRow>): (r: seq<RawRow>)
    ensures IsSubsequence(r, rows)
    ensures forall row :: row in r <==> row in rows && row.timestamp != Some(Header)
    ensures forall row :: multiset(r)[row] == if NotHeader(row) then multiset(rows)[row] else 0
  {
    Keep(rows, NotHeader)
  }

  function FollowersCell(row: RawRow): Option<string> { row.followers }
  function MediaCell(row: RawRow): Option<string> { row.media }

  /** What the pipeline makes of one raw row before `dropna`. */
  function Coerce(row: RawRow, p: Parsers): Record {
    Record(row.timestamp, row.username, NumericOrZero(row.followers), NumericOrZero(row.media),
           ParseTimestamp(row.timestamp, p))
  }

  function CoerceWith(p: Parsers): RawRow -> Record {
    row => Coerce(row, p)
  }

  /** Converts both metric columns and adds the parsed timestamp column
      (dash.py:42-46, 79); the column-wise result agrees with coercing row by row. */
  function Stage(rows: seq<RawRow>, p: Parsers): (r: seq<Record>)
    ensures |r| == |rows|
    ensures forall i :: 0 <= i < |rows| ==> r[i] == Coerce(rows[i], p)
    ensures r == Map(rows, CoerceWith(p))
  {
    var followers := SafeNumericConvert(Map(rows, FollowersCell));
    var media := SafeNumericConvert(Map(rows, MediaCell));
    seq(|rows|, i requires 0 <= i < |rows| =>
      Record(rows[i].timestamp, rows[i].username, followers[i], media[i], ParseTimestamp(rows[i].timestamp, p)))
  }

  predicate IsParsed(r: Record) {
    r.parsed.Some?
  }

  /** A cleaned post seen as the staged record it came from. */
  function Lift(post: Post): Record {
    Record(post.timestamp, post.username, post.followers, post.media, Some(post.at))
  }

  /** Drops the rows whose timestamp did not parse (dash.py:82). */
  function DropUnparsed(rs: seq<Record>): (ps: seq<Post>)
    ensures Map(ps, Lift) == Keep(rs, IsParsed)
  {
    if |rs| == 0 then []
    else
      var rest := DropUnparsed(rs[1..]);
      match rs[0].parsed
      case None => rest
      case Some(at) =>
        var post := Post(rs[0].timestamp, rs[0].username, rs[0].followers, rs[0].media, at);
        assert Map([post] + rest, Lift) == [Lift(post)] + Map(rest, Lift);
        [post] + rest
  }

  predicate InYearRange(year: int, now: int) {
    MinYear <= year <= now + 1
  }

  function InRangeAt(now: int): Post -> bool {
    post => InYearRange(YearOf(post), now)
  }

  /** A staged record ends up in the cleaned table. */
  function SurvivesAt(now: int): Record -> bool {
    (r: Record) => r.parsed.Some? && InYearRange(r.parsed.value.year, now)
  }

  /** The table after the header filter, the coercions and `dropna`, before the year filter. */
  function ParsedPosts(rows: seq<RawRow>, p: Parsers): seq<Post> {
    DropUnparsed(Stage(DropHeaderRows(rows), p))
  }

  /** The whole of `load_data`. `source` is None when the file cannot be read;
      `now` is the current calendar year. The result is None when nothing can
      be loaded; otherwise it is the cleaned table, possibly empty, because
      emptiness is tested before the year filter (dash.py:84 and 98). */
  function LoadData(source: Option<seq<RawRow>>, now: int, p: Parsers): (r: Option<seq<Post>>)
    ensures r.None? <==>
      source.None? || forall row :: row in source.value ==> ParseTimestamp(row.timestamp, p).None?
    ensures r.Some? ==> forall post :: post in r.value ==>
      post.timestamp != Some(Header) && InYearRange(YearOf(post), now)
  {
    match source
    case None => None
    case Some(rows) =>
      var parsed := ParsedPosts(rows, p);
      ParsedPostsFacts(rows, p);
      if |parsed| == 0 then None
      else Some(Keep(parsed, InRangeAt(now)))
  }

  lemma ParsedPostsFacts(rows: seq<RawRow>, p: Parsers)
    ensures |ParsedPosts(rows, p)| == 0 <==> forall row :: row in rows ==> ParseTimestamp(row.timestamp, p).None?
    ensures forall post :: post in ParsedPosts(rows, p) ==> post.timestamp != Some(Header)
  {
    var kept := DropHeaderRows(rows);
    var staged := Stage(kept, p);
    var parsed := DropUnparsed(staged);
    StagedParsed(rows, kept, staged, p);
    assert |parsed| == |Map(parsed, Lift)| == |Keep(staged, IsParsed)|;
    NoHeaderParsed(rows, p);
  }

  /** No header line survives `dropna`: its timestamp never parses, and it was removed before. */
  lemma NoHeaderParsed(rows: seq<RawRow>, p: Parsers)
    ensures forall post :: post in ParsedPosts(rows, p) ==> post.timestamp != Some(Header)
  {
    var kept := DropHeaderRows(rows);
    var staged := Stage(kept, p);
    var parsed := DropUnparsed(staged);
    var lifted := Keep(staged, IsParsed);
    assert Map(parsed, Lift) == lifted;
    forall post | post in parsed ensures post.timestamp != Some(Header) {
      var i :| 0 <= i < |parsed| && parsed[i] == post;
      assert Map(parsed, Lift)[i] == Lift(post);
      assert Lift(post) in lifted;
      assert Lift(post) in staged;
      var j :| 0 <= j < |staged| && staged[j] == Lift(post);
      assert staged[j].timestamp == kept[j].timestamp;
      assert kept[j] in kept;
    }
  }

  /** After the header filter, some staged row is parsed exactly when some source row parses. */
  lemma StagedParsed(rows: seq<RawRow>, kept: seq<RawRow>, staged: seq<Record>, p: Parsers)
    requires kept == DropHeaderRows(rows)
    requires staged == Stage(kept, p)
    ensures |Keep(staged, IsParsed)| == 0 <==> forall row :: row in rows ==> ParseTimestamp(row.timestamp, p).None?
  {
    if forall row :: row in rows ==> ParseTimestamp(row.timestamp, p).None? {
      NoneParsed(rows, kept, staged, p);
    } else {
      var row :| row in rows && ParseTimestamp(row.timestamp, p).Some?;
      SomeParsed(rows, kept, staged, p, row);
    }
  }

  lemma NoneParsed(rows: seq<RawRow>, kept: seq<RawRow>, staged: seq<Record>, p: Parsers)
    requires kept == DropHeaderRows(rows)
    requires staged == Stage(kept, p)
    requires forall row :: row in rows ==> ParseTimestamp(row.timestamp, p).None?
    ensures |Keep(staged, IsParsed)| == 0
  {
    forall i | 0 <= i < |staged| ensures !IsParsed(staged[i]) {
      assert staged[i].parsed == ParseTimestamp(kept[i].timestamp, p);
      assert kept[i] in rows;
    }
    assert forall x :: x in Keep(staged, IsParsed) ==> x in staged && IsParsed(x);
  }

  lemma SomeParsed(rows: seq<RawRow>, kept: seq<RawRow>, staged: seq<Record>, p: Parsers, row: RawRow)
    requires kept == DropHeaderRows(rows)
    requires staged == Stage(kept, p)
    requires row in rows && ParseTimestamp(row.timestamp, p).Some?
    ensures |Keep(staged, IsParsed)| > 0
  {
    assert row in kept;
    var i :| 0 <= i < |kept| && kept[i] == row;
    assert IsParsed(staged[i]);
    assert staged[i] in Keep(staged, IsParsed);
  }

  /** A raw row whose staged record survives cleaning. */
  function SurvivesRawAt(now: int, p: Parsers): RawRow -> bool {
    row => SurvivesAt(now)(Coerce(row, p))
  }

  /** Cleaning only removes rows and keeps the order of the rest: the cleaned
      table is exactly the coerced source rows whose timestamp parsed to a year
      in range, in source order, each once per occurrence. */
  lemma {:induction false} LoadDataKeepsSurvivors(rows: seq<RawRow>, now: int, p: Parsers)
    ensures LoadData(Some(rows), now, p).Some? ==>
      Map(LoadData(Some(rows), now, p).value, Lift) == Keep(Map(rows, CoerceWith(p)), SurvivesAt(now))
  {
    var staged := Stage(DropHeaderRows(rows), p);
    CleanedAsStaged(staged, now);
    StagedAsSource(rows, now, p);
  }

  /** Dropping the unparsed records and then the out-of-range posts keeps exactly the surviving records. */
  lemma CleanedAsStaged(staged: seq<Record>, now: int)
    ensures Map(Keep(DropUnparsed(staged), InRangeAt(now)), Lift) == Keep(staged, SurvivesAt(now))
  {
    var surv := SurvivesAt(now);
    var parsed := DropUnparsed(staged);
    KeepMap(parsed, Lift, surv, InRangeAt(now));
    KeepKeep(staged, IsParsed, surv, surv);
  }

  /** No header line survives, so filtering the headers first changes nothing for the survivors. */
  lemma StagedAsSource(rows: seq<RawRow>, now: int, p: Parsers)
    ensures Keep(Stage(DropHeaderRows(rows), p), SurvivesAt(now)) == Keep(Map(rows, CoerceWith(p)), SurvivesAt(now))
  {
    var c := CoerceWith(p);
    var surv := SurvivesAt(now);
    var survRaw := SurvivesRawAt(now, p);
    var kept := DropHeaderRows(rows);
    KeepMap(kept, c, surv, survRaw);
    assert forall row :: survRaw(row) ==> NotHeader(row);
    KeepKeep(rows, NotHeader, survRaw, survRaw);
    KeepMap(rows, c, surv, survRaw);
  }

  /** Every format yields 2005-06-01, and the inference parser yields nothing. */
  function Only2005(): Parsers {
    Parsers((s: string, f: Format) => Some(DateTime(2005, 6, 1, 0, 0, 0)), (s: string) => None)
  }

  /** The emptiness test precedes the year filter: a source whose only parsed
      row falls before 2010 loads as an empty table rather than as None. */
  lemma YearFilterCanEmptyTable()
    ensures LoadData(Some([RawRow(Some("2005-06-01"), "ana", None, None)]), 2025, Only2005()) == Some([])
  {
    var row := RawRow(Some("2005-06-01"), "ana", None, None);
    var p := Only2005();
    assert !Unparseable(row.timestamp);
    assert ParseTimestamp(row.timestamp, p).Some?;
    var cleaned := LoadData(Some([row]), 2025, p).value;
    assert forall post :: post in cleaned ==> YearOf(post) == 2005;
  }
}

=== FILE: numeric.dfy ===
/** Defensive numeric coercion of the metric columns (`safe_numeric_convert`,
    dash.py:32-39): a cell holding a decimal integer numeral becomes its value,
    any other cell (including a missing one) becomes 0. */
module Numeric {
  import opened Options
  import opened Seqs

  predicate IsDigit(c: char) {
    '0' <= c <= '9'
  }

  predicate AllDigits(s: string) {
    forall i :: 0 <= i < |s| ==> IsDigit(s[i])
  }

  function DigitValue(c: char): nat
    requires IsDigit(c)
  {
    (c as int) - ('0' as int)
  }

  function DigitChar(n: nat): (c: char)
    requires n < 10
    ensures IsDigit(c) && DigitValue(c) == n
  {
    (('0' as int) + n) as char
  }

  /** The value of a string of decimal digits, most significant first. */
  function DigitsValue(s: string): nat
    requires AllDigits(s)
  {
    if |s| == 0 then 0 else DigitsValue(s[..|s| - 1]) * 10 + DigitValue(s[|s| - 1])
  }

  /** Strict numeral parse: an optional sign followed by at least one digit. */
  function ParseInt(s: string): Option<int> {
    if |s| > 0 && (s[0] == '-' || s[0] == '+') then
      var digits := s[1..];
      if |digits| > 0 && AllDigits(digits) then
        var magnitude: int := DigitsValue(digits);
        Some(if s[0] == '-' then -magnitude else magnitude)
      else None
    else if |s| > 0 && AllDigits(s) then Some(DigitsValue(s))
    else None
  }

  /** The shortest decimal numeral of `n`. */
  function NatToDigits(n: nat): (s: string)
    ensures |s| > 0 && AllDigits(s)
    ensures DigitsValue(s) == n
  {
    if n < 10 then [DigitChar(n)]
    else
      var prefix := NatToDigits(n / 10);
      var s := prefix + [DigitChar(n % 10)];
      assert s[..|s| - 1] == prefix;
      s
  }

  function IntToString(n: int): string {
    if n < 0 then "-" + NatToDigits(-n) else NatToDigits(n)
  }

  /** Every integer's numeral parses back to that integer. */
  lemma ParseIntRoundTrip(n: int)
    ensures ParseInt(IntToString(n)) == Some(n)
  {
    if n < 0 {
      var s := "-" + NatToDigits(-n);
      assert s[1..] == NatToDigits(-n);
    } else {
      var s := NatToDigits(n);
      assert !IsDigit('-') && !IsDigit('+');
      assert IsDigit(s[0]);
    }
  }

  /** The coerced value of one cell: its numeral value, or 0 when it is
      missing or not a numeral (`to_numeric(errors='coerce').fillna(0)`).
      Stated independently of the parser: the numeral of any integer gives
      that integer, a cell without a decimal digit gives 0, and a negative
      value needs a leading minus sign. */
  function NumericOrZero(cell: Option<string>): (n: int)
    ensures cell.Some? && ParseInt(cell.value).Some? ==> n == ParseInt(cell.value).value
    ensures cell.None? || ParseInt(cell.value).None? ==> n == 0
    ensures forall k :: cell == Some(IntToString(k)) ==> n == k
    ensures cell.None? || NoDigit(cell.value) ==> n == 0
    ensures n < 0 ==> cell.Some? && |cell.value| > 0 && cell.value[0] == '-'
  {
    match cell
    case None => 0
    case Some(s) =>
      ParseRendered(s);
      ParseNeedsDigit(s);
      ParseInt(s).GetOr(0)
  }

  predicate NoDigit(s: string) {
    forall i :: 0 <= i < |s| ==> !IsDigit(s[i])
  }

  /** A string that is some integer's numeral parses to that integer. */
  lemma ParseRendered(s: string)
    ensures forall k :: s == IntToString(k) ==> ParseInt(s) == Some(k)
  {
    forall k | s == IntToString(k)
      ensures ParseInt(s) == Some(k)
    {
      ParseIntRoundTrip(k);
    }
  }

  /** A string without a decimal digit is not a numeral. */
  lemma ParseNeedsDigit(s: string)
    ensures NoDigit(s) ==> ParseInt(s).None?
  {
    if NoDigit(s) && |s| > 1 {
      assert !IsDigit(s[1..][0]);
    }
  }

  /** The rendered numeral of an integer coerces back to that integer. */
  lemma NumericOrZeroRendered(k: int)
    ensures NumericOrZero(Some(IntToString(k))) == k
  {
    ParseIntRoundTrip(k);
  }

  /** Column-wise coercion: one number per cell, never a missing value. */
  function SafeNumericConvert(column: seq<Option<string>>): (r: seq<int>)
    ensures |r| == |column|
    ensures forall i :: 0 <= i < |column| ==>
      (column[i].Some? && ParseInt(column[i].value).Some? ==> r[i] == ParseInt(column[i].value).value)
    ensures forall i :: 0 <= i < |column| ==>
      (column[i].None? || ParseInt(column[i].value).None? ==> r[i] == 0)
  {
    if |column| == 0 then []
    else [NumericOrZero(column[0])] + SafeNumericConvert(column[1..])
  }

  function Render(n: int): Option<string> {
    Some(IntToString(n))
  }

  /** A column of rendered integers coerces back to exactly those integers. */
  lemma SafeNumericConvertRendered(xs: seq<int>)
    ensures SafeNumericConvert(Map(xs, Render)) == xs
  {
    var r := SafeNumericConvert(Map(xs, Render));
    forall i | 0 <= i < |xs|
      ensures r[i] == xs[i]
    {
      ParseIntRoundTrip(xs[i]);
    }
  }
}

=== FILE: options.dfy ===
/** The optional value used for cells that may be missing and for
    computations that may yield "no value" (pandas' NaN / NaT / None). */
module Options {

  datatype Option<+T> = None | Some(value: T) {

    /** The carried value, or `default` when there is none. */
    function GetOr(default: T): T {
      match this
      case Some(v) => v
      case None => default
    }
  }
}

=== FILE: seqs.dfy ===
/** Order-preserving filters, projections and per-key tallies over
    sequences: the row-level meaning of the dataframe operations the
    dashboard uses (boolean-mask selection, column projection, value
    counts). */
module Seqs {

  /** `a` is obtained from `b` by deleting elements, keeping the order of the rest. */
  predicate IsSubsequence<T(==)>(a: seq<T>, b: seq<T>)
    decreases |b|
  {
    |a| <= |b| &&
    (|a| == 0 || (a[0] == b[0] && IsSubsequence(a[1..], b[1..])) || IsSubsequence(a, b[1..]))
  }

  lemma {:induction false} IsSubsequenceOfSelf<T>(s: seq<T>)
    ensures IsSubsequence(s, s)
  {
    if |s| > 0 {
      IsSubsequenceOfSelf(s[1..]);
    }
  }

  /** The elements of `s` that satisfy `f`, in their original order
      (a boolean-mask selection `df[mask]`). */
  function Keep<T(==,!new)>(s: seq<T>, f: T -> bool): (r: seq<T>)
    ensures |r| <= |s|
    ensures IsSubsequence(r, s)
    ensures forall x :: x in r <==> x in s && f(x)
    ensures forall x :: multiset(r)[x] == if f(x) then multiset(s)[x] else 0
  {
    if |s| == 0 then []
    else
      var rest := Keep(s[1..], f);
      assert s == [s[0]] + s[1..];
      if f(s[0]) then [s[0]] + rest else rest
  }

  /** The column obtained by applying `f` to every row. */
  function Map<A, B>(s: seq<A>, f: A -> B): (r: seq<B>)
    ensures |r| == |s|
    ensures forall i :: 0 <= i < |s| ==> r[i] == f(s[i])
  {
    if |s| == 0 then [] else [f(s[0])] + Map(s[1..], f)
  }

  /** Two successive selections are one selection by the conjunction. */
  lemma {:induction false} KeepKeep<T(!new)>(s: seq<T>, f: T -> bool, g: T -> bool, h: T -> bool)
    requires forall x :: h(x) == (f(x) && g(x))
    ensures Keep(Keep(s, f), g) == Keep(s, h)
  {
    if |s| > 0 {
      KeepKeep(s[1..], f, g, h);
      var rest := Keep(s[1..], f);
      if f(s[0]) {
        assert Keep(s, f) == [s[0]] + rest;
        assert ([s[0]] + rest)[1..] == rest;
      }
    }
  }

  /** Selecting after projecting is projecting after selecting by the composed test. */
  lemma {:induction false} KeepMap<A(!new), B(!new)>(s: seq<A>, f: A -> B, g: B -> bool, gf: A -> bool)
    requires forall x :: gf(x) == g(f(x))
    ensures Keep(Map(s, f), g) == Map(Keep(s, gf), f)
  {
    if |s| > 0 {
      KeepMap(s[1..], f, g, gf);
      assert Map(s, f) == [f(s[0])] + Map(s[1..], f);
      assert (Map(s, f))[1..] == Map(s[1..], f);
      var rest := Keep(s[1..], gf);
      if gf(s[0]) {
        assert Keep(s, gf) == [s[0]] + rest;
        assert Map([s[0]] + rest, f) == [f(s[0])] + Map(rest, f);
      }
    }
  }

  /** Every element of `s` is strictly smaller than every later one. */
  predicate StrictlyAscending(s: seq<int>) {
    forall i, j :: 0 <= i < j < |s| ==> s[i] < s[j]
  }

  predicate Distinct<T(==)>(s: seq<T>) {
    forall i, j :: 0 <= i < j < |s| ==> s[i] != s[j]
  }

  /** Adds `x` to an ascending sequence, keeping it ascending and duplicate-free. */
  function Insert(s: seq<int>, x: int): (r: seq<int>)
    requires StrictlyAscending(s)
    ensures StrictlyAscending(r)
    ensures forall y :: y in r <==> y in s || y == x
  {
    if |s| == 0 then [x]
    else if x < s[0] then
      assert forall j :: 0 < j < |s| ==> s[0] < s[j];
      [x] + s
    else if x == s[0] then s
    else
      var rest := Insert(s[1..], x);
      assert forall y :: y in rest ==> s[0] < y by {
        forall y | y in rest ensures s[0] < y {
          if y != x {
            var j :| 0 <= j < |s[1..]| && s[1..][j] == y;
            assert s[j + 1] == y;
          }
        }
      }
      assert forall j :: 0 <= j < |rest| ==> rest[j] in rest;
      assert forall y :: y in s <==> y == s[0] || y in s[1..] by {
        assert s == [s[0]] + s[1..];
      }
      [s[0]] + rest
  }

  /** The distinct values of `xs`, sorted ascending (Python's `sorted(set(xs))`). */
  function Ascending(xs: seq<int>): (r: seq<int>)
    ensures StrictlyAscending(r)
    ensures forall y :: y in r <==> y in xs
  {
    if |xs| == 0 then []
    else
      var init := xs[..|xs| - 1];
      assert xs == init + [xs[|xs| - 1]];
      Insert(Ascending(init), xs[|xs| - 1])
  }

  /** A finite set of integers has exactly one strictly ascending enumeration. */
  lemma {:induction false} AscendingUnique(a: seq<int>, b: seq<int>)
    requires StrictlyAscending(a) && StrictlyAscending(b)
    requires forall y :: y in a <==> y in b
    ensures a == b
  {
    assert |a| > 0 ==> a[0] in a;
    assert |b| > 0 ==> b[0] in b;
    if |a| > 0 && |b| > 0 {
      assert a[0] in a && b[0] in b;
      assert a[0] in b && b[0] in a;
      assert a[0] == b[0];
      forall y
        ensures y in a[1..] <==> y in b[1..]
      {
        if y in a[1..] {
          var i :| 0 <= i < |a[1..]| && a[1..][i] == y;
          assert a[i + 1] == y && a[0] < y;
          assert y in b;
          var j :| 0 <= j < |b| && b[j] == y;
          assert j > 0;
          assert b[1..][j - 1] == y;
        }
        if y in b[1..] {
          var j :| 0 <= j < |b[1..]| && b[1..][j] == y;
          assert b[j + 1] == y && b[0] < y;
          assert y in a;
          var i :| 0 <= i < |a| && a[i] == y;
          assert i > 0;
          assert a[1..][i - 1] == y;
        }
      }
      AscendingUnique(a[1..], b[1..]);
      assert a == [a[0]] + a[1..];
      assert b == [b[0]] + b[1..];
    }
  }

  /** The multiplicity in `m` of each key of `ks`, in the order of `ks`. */
  function Counts<T(==)>(ks: seq<T>, m: multiset<T>): (r: seq<nat>)
    ensures |r| == |ks|
    ensures forall i :: 0 <= i < |ks| ==> r[i] == m[ks[i]]
  {
    if |ks| == 0 then [] else [m[ks[0]]] + Counts(ks[1..], m)
  }

  function Sum(xs: seq<nat>): nat {
    if |xs| == 0 then 0 else xs[0] + Sum(xs[1..])
  }

  lemma {:induction false} SumCountsEmpty<T>(ks: seq<T>)
    ensures Sum(Counts(ks, multiset{})) == 0
  {
    if |ks| > 0 {
      SumCountsEmpty(ks[1..]);
    }
  }

  /** Tallying is additive in the multiset being tallied. */
  lemma {:induction false} SumCountsUnion<T>(ks: seq<T>, m1: multiset<T>, m2: multiset<T>)
    ensures Sum(Counts(ks, m1 + m2)) == Sum(Counts(ks, m1)) + Sum(Counts(ks, m2))
  {
    if |ks| > 0 {
      SumCountsUnion(ks[1..], m1, m2);
    }
  }

  /** Over duplicate-free keys, a single value is counted once if it is a key and not at all otherwise. */
  lemma {:induction false} SumCountsSingleton<T>(ks: seq<T>, x: T)
    requires Distinct(ks)
    ensures Sum(Counts(ks, multiset{x})) == if x in ks then 1 else 0
  {
    if |ks| > 0 {
      assert Distinct(ks[1..]) by {
        forall i, j | 0 <= i < j < |ks[1..]| ensures ks[1..][i] != ks[1..][j] {
          assert ks[1..][i] == ks[i + 1] && ks[1..][j] == ks[j + 1];
        }
      }
      SumCountsSingleton(ks[1..], x);
      assert ks == [ks[0]] + ks[1..];
      assert forall j :: 0 <= j < |ks[1..]| ==> ks[1..][j] != ks[0] by {
        forall j | 0 <= j < |ks[1..]| ensures ks[1..][j] != ks[0] {
          assert ks[1..][j] == ks[j + 1];
        }
      }
    }
  }

  /** When the keys are duplicate-free and cover every value, the tallies add up to the number of values. */
  lemma {:induction false} SumCountsCovers<T>(ks: seq<T>, xs: seq<T>)
    requires Distinct(ks)
    requires forall x :: x in xs ==> x in ks
    ensures Sum(Counts(ks, multiset(xs))) == |xs|
  {
    if |xs| == 0 {
      SumCountsEmpty(ks);
    } else {
      assert xs == [xs[0]] + xs[1..];
      assert multiset(xs) == multiset{xs[0]} + multiset(xs[1..]);
      SumCountsUnion(ks, multiset{xs[0]}, multiset(xs[1..]));
      SumCountsSingleton(ks, xs[0]);
      SumCountsCovers(ks, xs[1..]);
    }
  }
}

=== FILE: timestamps.dfy ===
/** Timestamp parsing with an ordered fallback (`parse_timestamp`,
    dash.py:49-75). The five strict format parsers and the lenient inference
    parser belong to the dataframe library; they are parameters here, so the
    policy that combines them is what is verified. */
module Timestamps {
  import opened Options
  import opened Calendar

  /** The raw value of the timestamp column in a repeated header line. */
  const Header: string := "timestamp"

  /** The strict formats, named after their strptime patterns. */
  datatype Format =
    | IsoWithOffset    // %Y-%m-%dT%H:%M:%S%z
    | IsoLiteralUtc    // %Y-%m-%dT%H:%M:%S+0000
    | IsoNaive         // %Y-%m-%dT%H:%M:%S
    | SpaceSeparated   // %Y-%m-%d %H:%M:%S
    | DateOnly         // %Y-%m-%d

  /** The order in which the formats are tried (dash.py:57-63). */
  const Formats: seq<Format> := [IsoWithOffset, IsoLiteralUtc, IsoNaive, SpaceSeparated, DateOnly]

  /** The library's parsers: `strict(s, f)` parses `s` with exactly format `f`,
      `infer(s)` guesses a format; each yields None where the library raises. */
  datatype Parsers = Parsers(strict: (string, Format) -> Option<Instant>, infer: string -> Option<Instant>)

  predicate Succeeds(s: string, p: Parsers, i: int)
    requires 0 <= i < |Formats|
  {
    p.strict(s, Formats[i]).Some?
  }

  /** The index of the first format, at or after `k`, that parses `s`; None when all of them fail. */
  function FirstFormatFrom(s: string, p: Parsers, k: nat): (r: Option<nat>)
    requires k <= |Formats|
    ensures r.Some? ==> k <= r.value < |Formats| && Succeeds(s, p, r.value)
    ensures r.Some? ==> forall j :: k <= j < r.value ==> !Succeeds(s, p, j)
    ensures r.None? <==> forall j :: k <= j < |Formats| ==> !Succeeds(s, p, j)
    decreases |Formats| - k
  {
    if k == |Formats| then None
    else if p.strict(s, Formats[k]).Some? then
      assert Succeeds(s, p, k);
      Some(k)
    else FirstFormatFrom(s, p, k + 1)
  }

  /** The index of the first format, in the fixed order, that parses `s`. */
  function WinningFormat(s: string, p: Parsers): (r: Option<nat>)
    ensures r.Some? ==> r.value < |Formats| && Succeeds(s, p, r.value)
    ensures r.Some? ==> forall j :: 0 <= j < r.value ==> !Succeeds(s, p, j)
    ensures r.None? <==> forall j :: 0 <= j < |Formats| ==> !Succeeds(s, p, j)
  {
    FirstFormatFrom(s, p, 0)
  }

  /** A cell that is missing, empty or the header text: never parsed. */
  predicate Unparseable(ts: Option<string>) {
    ts.None? || ts.value == "" || ts.value == Header
  }

  /** The parsed timestamp of a raw cell, or None (pandas' NaT). */
  function ParseTimestamp(ts: Option<string>, p: Parsers): (r: Option<Instant>)
    ensures Unparseable(ts) ==> r.None?
    ensures !Unparseable(ts) ==>
      forall i :: 0 <= i < |Formats| && Succeeds(ts.value, p, i)
        && (forall j :: 0 <= j < i ==> !Succeeds(ts.value, p, j))
        ==> r == p.strict(ts.value, Formats[i])
    ensures !Unparseable(ts) && (forall i :: 0 <= i < |Formats| ==> !Succeeds(ts.value, p, i)) ==>
      r == p.infer(ts.value)
  {
    if Unparseable(ts) then None
    else
      match WinningFormat(ts.value, p)
      case Some(i) => p.strict(ts.value, Formats[i])
      case None => p.infer(ts.value)
  }

  /** The inference parser is consulted only as a last resort: when some strict
      format succeeds, replacing the inference parser does not change the result. */
  lemma InferenceOnlyAsLastResort(ts: Option<string>, p: Parsers, q: Parsers)
    requires forall s, f :: p.strict(s, f) == q.strict(s, f)
    requires !Unparseable(ts)
    requires exists i :: 0 <= i < |Formats| && Succeeds(ts.value, p, i)
    ensures ParseTimestamp(ts, p) == ParseTimestamp(ts, q)
    ensures ParseTimestamp(ts, p).Some?
  {
    var s := ts.value;
    var w := WinningFormat(s, p);
    assert w.Some?;
    var wq := WinningFormat(s, q);
    assert forall j :: 0 <= j < |Formats| ==> (Succeeds(s, p, j) <==> Succeeds(s, q, j));
    assert wq.Some?;
    assert Succeeds(s, p, wq.value) && Succeeds(s, q, w.value);
    assert wq.value == w.value;
  }

  /** A string the `+0000`-literal format accepts is never parsed by that
      format when the `%z` format, tried before it, accepts the same string:
      the second format only matters for strings `%z` rejects. */
  lemma LiteralUtcShadowedByOffsetFormat(s: string, p: Parsers)
    requires p.strict(s, IsoLiteralUtc).Some? ==> p.strict(s, IsoWithOffset).Some?
    ensures WinningFormat(s, p) != Some(1)
  {
    assert Formats[0] == IsoWithOffset && Formats[1] == IsoLiteralUtc;
  }
}

=== FILE: views.dfy ===
/** The aggregations `main` computes from the cleaned table (dash.py:114-421):
    the year selector and its default, the year filter, the per-key counts,
    the year-by-month heatmap, the monthly series with its rolling window, the
    pre/post pandemic split and the weekday counts. Figures are not modelled;
    each aggregation is the series handed to the charting library. */
module Views {
  import opened Options
  import opened Seqs
  import opened Calendar
  import opened Loader

  // Columns of the cleaned table.
  function Years(t: seq<Post>): seq<int> { Map(t, YearOf) }
  function Months(t: seq<Post>): seq<int> { Map(t, MonthOf) }
  function Hours(t: seq<Post>): seq<int> { Map(t, HourOf) }
  function Weekdays(t: seq<Post>): seq<Weekday> { Map(t, WeekdayOfPost) }

  /** `main` stops before any chart when loading failed or the table is empty (dash.py:122-124). */
  predicate Renders(loaded: Option<seq<Post>>) {
    loaded.Some? && |loaded.value| > 0
  }

  // ---------------------------------------------------------------- year selector

  /** The options of the year selector: the distinct years present, ascending (dash.py:130). */
  function YearsAvailable(t: seq<Post>): (ys: seq<int>)
    ensures StrictlyAscending(ys)
    ensures forall y :: y in ys <==> y in Years(t)
  {
    Ascending(Years(t))
  }

  /** The selector's options are the only ascending, duplicate-free listing of the years present. */
  lemma YearsAvailableUnique(t: seq<Post>, ys: seq<int>)
    requires StrictlyAscending(ys)
    requires forall y :: y in ys <==> y in Years(t)
    ensures ys == YearsAvailable(t)
  {
    AscendingUnique(ys, YearsAvailable(t));
  }

  /** The default selection: the three most recent years, or all of them when
      fewer are present (dash.py:134). */
  function DefaultSelection(t: seq<Post>): (sel: seq<int>)
    ensures StrictlyAscending(sel)
    ensures |sel| <= 3
    ensures forall y :: y in sel ==> y in Years(t)
    ensures |sel| == 3 || forall y :: y in Years(t) ==> y in sel
    ensures forall y, z :: y in Years(t) && y !in sel && z in sel ==> y < z
  {
    var ys := YearsAvailable(t);
    if |ys| >= 3 then
      var sel := ys[|ys| - 3..];
      assert forall k :: 0 <= k < |sel| ==> sel[k] == ys[|ys| - 3 + k];
      assert forall i :: |ys| - 3 <= i < |ys| ==> ys[i] in sel by {
        forall i | |ys| - 3 <= i < |ys| ensures ys[i] in sel {
          assert sel[i - (|ys| - 3)] == ys[i];
        }
      }
      sel
    else ys
  }

  function InYears(selected: seq<int>): Post -> bool {
    post => YearOf(post) in selected
  }

  /** The year filter (dash.py:138-141): an empty selection keeps every row;
      otherwise exactly the rows of a selected year are kept, in order, each as
      many times as it occurs. */
  function FilterByYears(t: seq<Post>, selected: seq<int>): (r: seq<Post>)
    ensures IsSubsequence(r, t)
    ensures |selected| == 0 ==> r == t
    ensures |selected| > 0 ==> forall post :: post in r ==> YearOf(post) in selected
    ensures |selected| > 0 ==> forall post :: YearOf(post) in selected ==> multiset(r)[post] == multiset(t)[post]
  {
    if |selected| == 0 then
      IsSubsequenceOfSelf(t);
      t
    else Keep(t, InYears(selected))
  }

  // ---------------------------------------------------------------- group-by counts

  /** One bar of a count chart: a key and the number of rows having it. */
  datatype Bucket = Bucket(key: int, posts: nat)

  function KeyOf(b: Bucket): int { b.key }
  function PostsOf(b: Bucket): nat { b.posts }
  function Keys(bs: seq<Bucket>): seq<int> { Map(bs, KeyOf) }
  function Total(bs: seq<Bucket>): nat { Sum(Map(bs, PostsOf)) }

  function Tally(ks: seq<int>, m: multiset<int>): (bs: seq<Bucket>)
    ensures |bs| == |ks|
    ensures forall i :: 0 <= i < |ks| ==> bs[i] == Bucket(ks[i], m[ks[i]])
  {
    seq(|ks|, i requires 0 <= i < |ks| => Bucket(ks[i], m[ks[i]]))
  }

  /** `groupby(key).size()`: each key present once, ascending, with its
      positive number of occurrences; the counts add up to the number of rows. */
  function GroupCount(xs: seq<int>): (bs: seq<Bucket>)
    ensures StrictlyAscending(Keys(bs))
    ensures forall k :: k in Keys(bs) <==> k in xs
    ensures forall i :: 0 <= i < |bs| ==> bs[i].posts == multiset(xs)[bs[i].key] > 0
    ensures Total(bs) == |xs|
  {
    var ks := Ascending(xs);
    var bs := Tally(ks, multiset(xs));
    assert Keys(bs) == ks;
    assert Map(bs, PostsOf) == Counts(ks, multiset(xs));
    assert forall i :: 0 <= i < |ks| ==> ks[i] in xs;
    SumCountsCovers(ks, xs);
    bs
  }

  /** Posts per year over the filtered rows (dash.py:174). */
  function YearlyCounts(t: seq<Post>): (bs: seq<Bucket>)
    ensures StrictlyAscending(Keys(bs))
    ensures forall y :: y in Keys(bs) <==> y in Years(t)
    ensures forall i :: 0 <= i < |bs| ==> bs[i].posts == multiset(Years(t))[bs[i].key] > 0
    ensures Total(bs) == |t|
  {
    GroupCount(Years(t))
  }

  /** Posts per hour of the day over the filtered rows (dash.py:191); only hours that occur get a bar. */
  function HourlyCounts(t: seq<Post>): (bs: seq<Bucket>)
    ensures StrictlyAscending(Keys(bs))
    ensures forall h :: h in Keys(bs) <==> h in Hours(t)
    ensures forall h :: h in Keys(bs) ==> 0 <= h < 24
    ensures forall i :: 0 <= i < |bs| ==> bs[i].posts == multiset(Hours(t))[bs[i].key] > 0
    ensures Total(bs) == |t|
  {
    GroupCount(Hours(t))
  }

  // ---------------------------------------------------------------- heatmap

  function YearMonthOf(p: Post): (int, int) { (p.at.year, p.at.month) }
  function YearMonths(t: seq<Post>): seq<(int, int)> { Map(t, YearMonthOf) }

  /** The pivot of the (year, month) counts: one row per month present, one
      column per year present, both ascending; `cells[i][j]` is the count for
      month `months[i]` of year `years[j]`, 0 where there is none. */
  datatype Grid = Grid(months: seq<int>, years: seq<int>, cells: seq<seq<nat>>)

  /** The cells of one month's row, one key per year. */
  function AtMonth(ys: seq<int>, m: int): (r: seq<(int, int)>)
    ensures |r| == |ys|
    ensures forall j :: 0 <= j < |ys| ==> r[j] == (ys[j], m)
  {
    seq(|ys|, j requires 0 <= j < |ys| => (ys[j], m))
  }

  function GridRows(ms: seq<int>, ys: seq<int>, m: multiset<(int, int)>): (rows: seq<seq<nat>>)
    ensures |rows| == |ms|
    ensures forall i :: 0 <= i < |ms| ==> rows[i] == Counts(AtMonth(ys, ms[i]), m)
  {
    if |ms| == 0 then [] else [Counts(AtMonth(ys, ms[0]), m)] + GridRows(ms[1..], ys, m)
  }

  /** The heatmap data (dash.py:209-215); None when there is nothing to show. */
  function Heatmap(t: seq<Post>): (g: Option<Grid>)
    ensures g.None? <==> |t| == 0
    ensures g.Some? ==> StrictlyAscending(g.value.months) && forall m :: m in g.value.months <==> m in Months(t)
    ensures g.Some? ==> StrictlyAscending(g.value.years) && forall y :: y in g.value.years <==> y in Years(t)
    ensures g.Some? ==> |g.value.cells| == |g.value.months|
    ensures g.Some? ==> forall i :: 0 <= i < |g.value.cells| ==> |g.value.cells[i]| == |g.value.years|
    ensures g.Some? ==> forall i, j :: 0 <= i < |g.value.months| && 0 <= j < |g.value.years| ==>
      g.value.cells[i][j] == multiset(YearMonths(t))[(g.value.years[j], g.value.months[i])]
  {
    if |t| == 0 then None
    else
      var ms := Ascending(Months(t));
      var ys := Ascending(Years(t));
      Some(Grid(ms, ys, GridRows(ms, ys, multiset(YearMonths(t)))))
  }

  /** A cell is positive exactly when some row has that year and month; every other cell is the zero fill. */
  lemma HeatmapCellPositive(t: seq<Post>)
    ensures Heatmap(t).Some? ==>
      var g := Heatmap(t).value;
      forall i, j :: 0 <= i < |g.months| && 0 <= j < |g.years| ==>
        (g.cells[i][j] > 0 <==> exists p :: p in t && YearOf(p) == g.years[j] && MonthOf(p) == g.months[i])
  {
    if Heatmap(t).Some? {
      var g := Heatmap(t).value;
      forall i, j | 0 <= i < |g.months| && 0 <= j < |g.years|
        ensures g.cells[i][j] > 0 <==> exists p :: p in t && YearOf(p) == g.years[j] && MonthOf(p) == g.months[i]
      {
        var key := (g.years[j], g.months[i]);
        if g.cells[i][j] > 0 {
          assert key in YearMonths(t);
          var k :| 0 <= k < |t| && YearMonths(t)[k] == key;
          assert t[k] in t && YearOf(t[k]) == g.years[j] && MonthOf(t[k]) == g.months[i];
        } else {
          forall p | p in t ensures !(YearOf(p) == g.years[j] && MonthOf(p) == g.months[i]) {
            var k :| 0 <= k < |t| && t[k] == p;
            assert YearMonths(t)[k] == YearMonthOf(p);
            assert YearMonthOf(p) != key;
          }
        }
      }
    }
  }

  function GridTotal(cells: seq<seq<nat>>): nat {
    if |cells| == 0 then 0 else Sum(cells[0]) + GridTotal(cells[1..])
  }

  lemma AtMonthFacts(ys: seq<int>, m: int)
    requires Distinct(ys)
    ensures Distinct(AtMonth(ys, m))
    ensures forall y, m' :: (y, m') in AtMonth(ys, m) <==> y in ys && m' == m
  {
    var r := AtMonth(ys, m);
    forall y, m' | y in ys && m' == m ensures (y, m') in r {
      var j :| 0 <= j < |ys| && ys[j] == y;
      assert r[j] == (y, m');
    }
  }

  /** One month's row of the pivot adds up to the number of rows in that month. */
  lemma {:induction false} MonthRowTotal(t: seq<Post>, ys: seq<int>, m: int)
    requires Distinct(ys)
    requires forall p :: p in t ==> YearOf(p) in ys
    ensures Sum(Counts(AtMonth(ys, m), multiset(YearMonths(t)))) == multiset(Months(t))[m]
  {
    AtMonthFacts(ys, m);
    var keys := AtMonth(ys, m);
    if |t| == 0 {
      SumCountsEmpty(keys);
    } else {
      var p := t[0];
      assert YearMonths(t) == [YearMonthOf(p)] + YearMonths(t[1..]);
      assert Months(t) == [MonthOf(p)] + Months(t[1..]);
      assert multiset(YearMonths(t)) == multiset{YearMonthOf(p)} + multiset(YearMonths(t[1..]));
      SumCountsUnion(keys, multiset{YearMonthOf(p)}, multiset(YearMonths(t[1..])));
      SumCountsSingleton(keys, YearMonthOf(p));
      assert YearOf(p) in ys;
      MonthRowTotal(t[1..], ys, m);
    }
  }

  lemma {:induction false} GridRowsTotal(t: seq<Post>, ms: seq<int>, ys: seq<int>)
    requires Distinct(ys)
    requires forall p :: p in t ==> YearOf(p) in ys
    ensures GridTotal(GridRows(ms, ys, multiset(YearMonths(t)))) == Sum(Counts(ms, multiset(Months(t))))
  {
    if |ms| > 0 {
      MonthRowTotal(t, ys, ms[0]);
      GridRowsTotal(t, ms[1..], ys);
    }
  }

  /** Every row of the table lands in exactly one cell of the pivot: the cells add up to the row count. */
  lemma HeatmapTotal(t: seq<Post>)
    requires |t| > 0
    ensures GridTotal(Heatmap(t).value.cells) == |t|
  {
    var g := Heatmap(t).value;
    assert forall p :: p in t ==> YearOf(p) in Years(t);
    GridRowsTotal(t, g.months, g.years);
    SumCountsCovers(g.months, Months(t));
  }

  /** The pandemic marks on the heatmap (dash.py:235-247). */
  datatype Marker = NoMarker | YearLine | CrossHair

  function PandemicMarker(t: seq<Post>): (mk: Marker)
    ensures mk == CrossHair <==> 2020 in Years(t) && 3 in Months(t)
    ensures mk == YearLine <==> 2020 in Years(t) && 3 !in Months(t)
  {
    match Heatmap(t)
    case None => NoMarker
    case Some(g) =>
      if 2020 in g.years then (if 3 in g.months then CrossHair else YearLine) else NoMarker
  }

  // ---------------------------------------------------------------- monthly series

  /** The month period `to_period('M')` as a count of months since year 0. */
  function MonthIndex(year: int, month: int): int {
    year * 12 + (month - 1)
  }

  function PeriodOf(p: Post): int { MonthIndex(p.at.year, p.at.month) }
  function Periods(t: seq<Post>): seq<int> { Map(t, PeriodOf) }

  /** The period index recovers the year and month it was built from. */
  lemma MonthIndexRoundTrip(year: int, month: int)
    requires 1 <= month <= 12
    ensures MonthIndex(year, month) / 12 == year
    ensures MonthIndex(year, month) % 12 + 1 == month
  {
  }

  /** Ordering period indexes orders months chronologically. */
  lemma MonthIndexChronological(a: Instant, b: Instant)
    ensures MonthIndex(a.year, a.month) < MonthIndex(b.year, b.month) <==>
      a.year < b.year || (a.year == b.year && a.month < b.month)
  {
    if a.year < b.year {
      assert a.year * 12 + 12 <= b.year * 12;
    } else if a.year > b.year {
      assert b.year * 12 + 12 <= a.year * 12;
    }
  }

  /** Posts per month over the whole table, chronological (dash.py:293-297). */
  function MonthlySeries(t: seq<Post>): (bs: seq<Bucket>)
    ensures StrictlyAscending(Keys(bs))
    ensures forall k :: k in Keys(bs) <==> k in Periods(t)
    ensures forall i :: 0 <= i < |bs| ==> bs[i].posts == multiset(Periods(t))[bs[i].key] > 0
    ensures Total(bs) == |t|
  {
    GroupCount(Periods(t))
  }

  /** The sum of each centered three-month window of the monthly counts
      (`rolling(window=3, center=True)`; the mean is this sum over 3). The
      first and last periods have no full window, and no window is computed at
      all unless there are more than three periods (dash.py:300-303). */
  function RollingSums(c: seq<nat>): (r: seq<Option<nat>>)
    ensures |r| == |c|
    ensures forall i :: 0 <= i < |c| ==> (r[i].Some? <==> |c| > 3 && 0 < i < |c| - 1)
    ensures forall i :: 0 < i < |c| - 1 && r[i].Some? ==> r[i].value == c[i - 1] + c[i] + c[i + 1]
  {
    if |c| > 3 then
      seq(|c|, i requires 0 <= i < |c| => if 0 < i < |c| - 1 then Some(c[i - 1] + c[i] + c[i + 1]) else None)
    else
      seq(|c|, i => None)
  }

  /** The rolling-mean line is drawn when some window is defined (dash.py:323). */
  predicate ShowsRollingMean(r: seq<Option<nat>>) {
    exists i :: 0 <= i < |r| && r[i].Some?
  }

  function CountDefined(r: seq<Option<nat>>): nat {
    if |r| == 0 then 0 else (if r[|r| - 1].Some? then 1 else 0) + CountDefined(r[..|r| - 1])
  }

  lemma {:induction false} CountDefinedRange(r: seq<Option<nat>>, lo: nat, hi: nat)
    requires lo <= hi <= |r|
    requires forall i :: 0 <= i < |r| ==> (r[i].Some? <==> lo <= i < hi)
    ensures CountDefined(r) == hi - lo
    decreases |r|
  {
    var n := |r|;
    if n > 0 {
      var init := r[..n - 1];
      assert forall i :: 0 <= i < n - 1 ==> init[i] == r[i];
      if n - 1 >= hi {
        CountDefinedRange(init, lo, hi);
      } else if lo < hi {
        CountDefinedRange(init, lo, hi - 1);
      } else {
        CountDefinedRange(init, n - 1, n - 1);
      }
    }
  }

  /** The rolling line is drawn exactly when there are more than three periods,
      and then every period but the first and the last has a window. */
  lemma RollingWindowsDefined(c: seq<nat>)
    ensures ShowsRollingMean(RollingSums(c)) <==> |c| > 3
    ensures CountDefined(RollingSums(c)) == if |c| > 3 then |c| - 2 else 0
  {
    var r := RollingSums(c);
    if |c| > 3 {
      assert r[1].Some?;
      CountDefinedRange(r, 1, |c| - 1);
    } else {
      CountDefinedRange(r, 0, 0);
    }
  }

  // ---------------------------------------------------------------- pandemic split

  datatype Period = PrePandemic | PostPandemic

  /** The bucket of one row (dash.py:364-369): its raw timestamp re-parsed as a
      UTC instant by `utc`; a row whose re-parse fails (NaT) compares false and
      so lands in the later bucket, as does the boundary instant itself. */
  function PeriodOfPost(post: Post, utc: string -> Option<Instant>): (period: Period)
    ensures period == PrePandemic <==>
      post.timestamp.Some? && utc(post.timestamp.value).Some? &&
      (utc(post.timestamp.value).value.year < 2020 ||
       (utc(post.timestamp.value).value.year == 2020 && utc(post.timestamp.value).value.month < 3))
  {
    match post.timestamp
    case None => PostPandemic
    case Some(s) =>
      match utc(s)
      case None => PostPandemic
      case Some(u) =>
        BeforePandemicIffEarlierMonth(u);
        if Before(u, PandemicStart) then PrePandemic else PostPandemic
  }

  function IsPre(utc: string -> Option<Instant>): Post -> bool {
    post => PeriodOfPost(post, utc) == PrePandemic
  }

  function IsPost(utc: string -> Option<Instant>): Post -> bool {
    post => PeriodOfPost(post, utc) == PostPandemic
  }

  /** The two slices of the pie chart. */
  datatype Split = Split(pre: nat, post: nat)

  /** Counts the rows of the whole (unfiltered) table per bucket (dash.py:375-379). */
  function SplitByPandemic(t: seq<Post>, utc: string -> Option<Instant>): (s: Split)
    ensures s.pre == |Keep(t, IsPre(utc))|
    ensures s.post == |Keep(t, IsPost(utc))|
    ensures s.pre + s.post == |t|
  {
    if |t| == 0 then Split(0, 0)
    else
      var rest := SplitByPandemic(t[1..], utc);
      if PeriodOfPost(t[0], utc) == PrePandemic then Split(rest.pre + 1, rest.post)
      else Split(rest.pre, rest.post + 1)
  }

  /** The two buckets partition the table: every row is in exactly one of them. */
  lemma SplitPartitions(t: seq<Post>, utc: string -> Option<Instant>)
    ensures multiset(Keep(t, IsPre(utc))) + multiset(Keep(t, IsPost(utc))) == multiset(t)
    ensures forall post :: post in t ==> (post in Keep(t, IsPre(utc)) <==> post !in Keep(t, IsPost(utc)))
  {
    var a := multiset(Keep(t, IsPre(utc)));
    var b := multiset(Keep(t, IsPost(utc)));
    forall post ensures (a + b)[post] == multiset(t)[post] {
      assert IsPre(utc)(post) != IsPost(utc)(post);
    }
  }

  /** The pie chart is drawn only when some row is counted (dash.py:381). */
  predicate PieShown(s: Split) {
    s.pre + s.post > 0
  }

  lemma PieShownIffRows(t: seq<Post>, utc: string -> Option<Instant>)
    ensures PieShown(SplitByPandemic(t, utc)) <==> |t| > 0
  {
  }

  /** The re-parse used in the example below: four dates, each at midnight UTC. */
  function ExampleUtc(s: string): Option<Instant> {
    if s == "2019-01-01" then Some(DateTime(2019, 1, 1, 0, 0, 0))
    else if s == "2020-02-15" then Some(DateTime(2020, 2, 15, 0, 0, 0))
    else if s == "2020-03-01" then Some(DateTime(2020, 3, 1, 0, 0, 0))
    else if s == "2021-06-01" then Some(DateTime(2021, 6, 1, 0, 0, 0))
    else None
  }

  function ExamplePost(s: string): Post {
    Post(Some(s), "user", 0, 0, ExampleUtc(s).GetOr(DateTime(2020, 1, 1, 0, 0, 0)))
  }

  /** Two posts before the boundary and two at or after it, the boundary instant counting as after. */
  lemma SplitExample()
    ensures SplitByPandemic(
      [ExamplePost("2019-01-01"), ExamplePost("2020-02-15"), ExamplePost("2020-03-01"), ExamplePost("2021-06-01")],
      ExampleUtc) == Split(2, 2)
  {
    var a, b, c, d := ExamplePost("2019-01-01"), ExamplePost("2020-02-15"), ExamplePost("2020-03-01"), ExamplePost("2021-06-01");
    assert PeriodOfPost(a, ExampleUtc) == PrePandemic;
    assert PeriodOfPost(b, ExampleUtc) == PrePandemic;
    assert PeriodOfPost(c, ExampleUtc) == PostPandemic;
    assert PeriodOfPost(d, ExampleUtc) == PostPandemic;
    var t := [a, b, c, d];
    assert t[1..] == [b, c, d] && t[2..] == [c, d] && t[3..] == [d] && t[4..] == [];
    assert SplitByPandemic([d], ExampleUtc) == Split(0, 1);
    assert SplitByPandemic([c, d], ExampleUtc) == Split(0, 2);
    assert SplitByPandemic([b, c, d], ExampleUtc) == Split(1, 2);
  }

  // ---------------------------------------------------------------- weekday counts

  /** Posts per weekday over the filtered rows, reindexed Monday..Sunday with
      zero fill (dash.py:410-411). */
  function WeekdayCounts(t: seq<Post>): (r: seq<nat>)
    ensures |r| == 7
    ensures forall i :: 0 <= i < 7 ==> r[i] == multiset(Weekdays(t))[WeekOrder[i]]
    ensures forall i :: 0 <= i < 7 ==> (r[i] == 0 <==> WeekOrder[i] !in Weekdays(t))
    ensures Sum(r) == |t|
  {
    forall w: Weekday ensures w in WeekOrder {
      WeekOrderComplete(w);
    }
    WeekOrderComplete(Monday);
    SumCountsCovers(WeekOrder, Weekdays(t));
    Counts(WeekOrder, multiset(Weekdays(t)))
  }

  // ---------------------------------------------------------------- the page

  /** Everything `main` charts for one selection of years. */
  datatype Dashboard = Dashboard(
    years: seq<int>,
    filtered: seq<Post>,
    yearly: seq<Bucket>,
    hourly: seq<Bucket>,
    heatmap: Option<Grid>,
    monthly: seq<Bucket>,
    rolling: seq<Option<nat>>,
    split: Split,
    weekdays: seq<nat>)

  /** The data side of `main`: None when there is nothing to chart; otherwise
      the year-filtered views, and the monthly series and pandemic split over
      the whole table. `selected` is the selector's value. */
  function BuildDashboard(loaded: Option<seq<Post>>, selected: seq<int>, utc: string -> Option<Instant>): (d: Option<Dashboard>)
    ensures d.None? <==> !Renders(loaded)
    ensures d.Some? ==> StrictlyAscending(d.value.years)
    ensures d.Some? ==> forall y :: y in d.value.years <==> y in Years(loaded.value)
    ensures d.Some? ==> IsSubsequence(d.value.filtered, loaded.value)
    ensures d.Some? && |selected| == 0 ==> d.value.filtered == loaded.value
    ensures d.Some? && |selected| > 0 ==> forall post ::
      multiset(d.value.filtered)[post] == if YearOf(post) in selected then multiset(loaded.value)[post] else 0
    ensures d.Some? ==> Total(d.value.yearly) == |d.value.filtered|
    ensures d.Some? ==> Total(d.value.hourly) == |d.value.filtered|
    ensures d.Some? ==> Sum(d.value.weekdays) == |d.value.filtered| && |d.value.weekdays| == 7
    ensures d.Some? ==> Total(d.value.monthly) == |loaded.value|
    ensures d.Some? ==> |d.value.rolling| == |d.value.monthly|
    ensures d.Some? ==> d.value.split.pre + d.value.split.post == |loaded.value|
    ensures d.Some? ==> (d.value.heatmap.None? <==> |d.value.filtered| == 0)
    ensures d.Some? ==> d.value.yearly == YearlyCounts(d.value.filtered) && d.value.hourly == HourlyCounts(d.value.filtered)
    ensures d.Some? ==> d.value.heatmap == Heatmap(d.value.filtered) && d.value.weekdays == WeekdayCounts(d.value.filtered)
    ensures d.Some? ==> d.value.monthly == MonthlySeries(loaded.value) && d.value.rolling == RollingSums(Map(d.value.monthly, PostsOf))
    ensures d.Some? ==> d.value.split == SplitByPandemic(loaded.value, utc)
  {
    if !Renders(loaded) then None
    else
      var t := loaded.value;
      var filtered := FilterByYears(t, selected);
      var monthly := MonthlySeries(t);
      Some(Dashboard(
        YearsAvailable(t),
        filtered,
        YearlyCounts(filtered),
        HourlyCounts(filtered),
        Heatmap(filtered),
        monthly,
        RollingSums(Map(monthly, PostsOf)),
        SplitByPandemic(t, utc),
        WeekdayCounts(filtered)))
  }
}
